=== FILE: README.md ===
# Future<Value>: a sequential model

This project models the `Future<Value>` result cell of the AsyncAwait
library for Swift: a single-assignment cell that a producer settles
through `accept`/`reject` callbacks, that any holder may `cancel`, and
that consumers read with the `value`/`error` accessors or a blocking
`await`, plus the combinators built on it (`on`, `attemptMap`, `map`,
`mapAsync`, `flatMap`, `combine`).

Threads and semaphores are stripped away. What remains:

- `Futures` (future_state.dfy): the four-case `State`, `Switch` (only
  `Working` is ever replaced), the three transitions `Accept`, `Reject`
  and `Cancel`, the `value`/`error` accessors, and sequences of calls
  folded over a cell (`Run`), proved equal to the reference
  `FirstWrite`: the first call decides, every later call is ignored.
- `FutureInit` (future_init.dfy): the designated initialiser as the
  sequence of calls its completion routine makes, and the throwing and
  pre-resolved convenience initialisers on top of it.
- `FutureAwait` (future_await.dfy): an `await` call as a decision over the
  state when the call starts, whether the wait timed out, and the state on
  waking (`Waiter`); the main-thread guard is the precondition of `Await`.
  Timeouts are `DispatchTimeInterval` values, measured in nanoseconds,
  with `never` a wait that can block for good; `await()` uses 60 seconds.
- `Dispatch` (dispatch.dfy): the calling context (`onMainThread`, whether
  XCTest is loaded, the synchronous-mode switch) and the contexts `async`
  and `main` run their blocks in.
- `Combinators` (combinators.dfy): each combinator in synchronous mode,
  where the dispatch helpers run blocks inline, as a function from the
  upstream awaits' outcomes and the closure to the state of the new
  future. Closures are total Dafny functions; a closure that throws
  returns `Fail`. Partners: `map` with the identity is `on`, `map`
  composes, `attemptMap` and `mapAsync` are `map` in disguise, `flatMap`
  has left and right identities, and `combine` is a `flatMap` over a `map`.
- `AwaitErrors` (await_error.dfy) and `Outcomes` (outcomes.dfy): the
  three `AwaitError` kinds plus an opaque producer error, `Option`, and a
  failure-compatible `Result` whose `:-` plays the role of Swift's `try`.

Testing mode requires both the synchronous-mode switch and a loaded
XCTest runtime (AsyncAwait/AsyncAwait.swift:32-34). The predicates
`Context.IsTesting` and `Context.MayAwait` are plain definitions of that
flag and of the main-thread guard of `await` (AsyncAwait/Future.swift:59).

## Model

| member | source | states |
|---|---|---|
| Futures.Switch | AsyncAwait/Future.swift:21-24 | the result is the old state or the requested one; it differs from the old state only if that was `working`, and a working state always takes the requested one |
| Futures.Accept | AsyncAwait/Future.swift:46-48 | on a working future, `value` becomes the accepted value and `error` is absent; a settled future is unchanged |
| Futures.Reject | AsyncAwait/Future.swift:49-51 | on a working future, `error` becomes the rejected error and `value` is absent; a settled future is unchanged |
| Futures.Cancel | AsyncAwait/Future.swift:82-84 | on a working future, `error` becomes `AwaitError.cancelled` and `value` is absent; on a settled future it is a no-op and both accessors keep their results |
| Futures.State.Value | AsyncAwait/Future.swift:27-32 | `value` is present exactly when the state is success, and then `error` is absent |
| Futures.State.Error | AsyncAwait/Future.swift:34-41 | `error` is present exactly for failure or cancellation, and a cancelled future reports `AwaitError.cancelled` |
| Futures.AccessorsExclusive | AsyncAwait/Future.swift:27-41 | the accessors are never both present, both are absent exactly while working, and they return the stored value or error |
| Futures.RunIsFirstWrite | AsyncAwait/Future.swift:46-52 | after any sequence of accept, reject and cancel calls the state is the one the first call asked for (or the state it already had, if settled) |
| Futures.Run | AsyncAwait/Future.swift:43-52 | folding calls over the cell leaves a settled cell as it is, and any non-empty sequence of calls leaves the cell settled |
| Futures.TerminalAbsorbs | AsyncAwait/Future.swift:21-24 | a terminal state absorbs every sequence of later calls |
| Futures.LaterCallsIgnored | AsyncAwait/Future.swift:46-52 | appending calls after at least one call changes nothing, and the cell is settled |
| Futures.Deliver | AsyncAwait/Future.swift:43-52 | a cell that receives the calls one by one ends in the first-write-wins state |
| Futures.FirstAcceptWins | AsyncAwaitTests/AsyncAwaitTests.swift:68-94 | accept "Done" then accept "Done2", or then reject, keeps "Done" and no error |
| Futures.FirstRejectWins | AsyncAwaitTests/AsyncAwaitTests.swift:96-113 | reject then accept keeps the error and no value; of two rejects the first error is kept |
| FutureInit.Init | AsyncAwait/Future.swift:46-52 | a new future stays working exactly when its routine makes no call, and otherwise holds what the first call asked for |
| FutureInit.ThrowingCalls | AsyncAwait/Future.swift:106-116 | the calls are the script's steps one for one (a completion an accept with its value, a throw a reject with its error), every call but the last comes from a completion, and the routine is cut short or ends in a reject exactly when the script throws |
| FutureInit.ThrowingInit | AsyncAwait/Future.swift:106-116 | throwing first fails with the thrown error; completing first succeeds with that value and `error` stays absent, even if the routine throws afterwards |
| FutureInit.InitValue | AsyncAwait/Future.swift:124-128 | `init(value:)` has that value and no error |
| FutureInit.InitError | AsyncAwait/Future.swift:118-122 | `init(error:)` has that error and no value |
| FutureInit.ThrowAfterCompleteIsDiscarded | AsyncAwaitTests/AsyncAwaitTests.swift:32-66 | complete-then-throw keeps the value, throw-then-complete keeps the error, two completions keep the first |
| FutureInit.SettledAtInitStaysSettled | AsyncAwait/Future.swift:46-52 | a future its routine settled during construction ignores every later call, cancellation included |
| Dispatch.Background | AsyncAwait/AsyncAwait.swift:12-20 | a block given to `async` runs inline in testing mode and off the main thread otherwise, leaving the testing switches as they were, so an `await` inside it passes the main-thread guard |
| Dispatch.Foreground | AsyncAwait/AsyncAwait.swift:22-30 | a block given to `main` runs inline (in the unchanged context) in testing mode and on the main thread otherwise, leaving the testing switches as they were |
| FutureAwait.Decide | AsyncAwait/Future.swift:63-79 | a settled future answers from its state without waiting; a working one times out, or reports the state it wakes to, with `nilValue` if it is still working |
| FutureAwait.Await | AsyncAwait/Future.swift:58-80 | may be called only off the main thread or in testing mode; a settled future answers from its state, a working one times out or reports the state it wakes to, and a returned value is what `value` showed before or after waiting |
| FutureAwait.LongerWaitsExpireLater | AsyncAwait/Future.swift:69-72 | a wait that survives until the signal is survived by every longer wait; `never` does not expire; a negative interval expires at once; seconds, milliseconds, microseconds and nanoseconds convert by factors of 1000 |
| FutureAwait.AwaitFor | AsyncAwait/Future.swift:58-80 | a settled future answers at once; a working one times out when the signal never comes or comes after the interval, reports the state it wakes to when signalled in time, and never returns only for a `never` wait that nobody signals |
| FutureAwait.AwaitDefault | AsyncAwait/Future.swift:54-56 | `await()` always returns: a settled future answers at once; signalled within 60 seconds it reports the state it wakes to, otherwise it times out |
| FutureAwait.AwaitRepeatable | AsyncAwait/Future.swift:63-67 | every await on a settled future gives the same outcome whatever the timing, succeeding exactly for success |
| FutureAwait.ResolutionMatchesAccessors | AsyncAwait/Future.swift:27-41 | a settled future's outcome returns exactly its `value` or throws exactly its `error` |
| FutureAwait.SignalledWaitSeesFirstCall | AsyncAwait/Future.swift:69-79 | a waiter woken (not timed out) by calls on a working future reports what the first call decided; a cancel wakes it with `cancelled` |
| FutureAwait.TimeoutDoesNotPoison | AsyncAwait/Future.swift:69-72 | for a producer settling 42 after 100 ms, a 1 s wait returns 42, a 10 ms wait times out, and a later await returns 42 |
| Combinators.Settle | AsyncAwait/Future.swift:46-52 | a future whose routine forwards one outcome is settled and reports exactly that outcome |
| Combinators.On | AsyncAwait/Future.swift:133-146 | the new future reports exactly what awaiting upstream reported |
| Combinators.OnNotifies | AsyncAwait/Future.swift:133-146 | the completion handler gets the upstream value, or the failure handler the upstream error, when given, and that is what the new future reports |
| Combinators.FromPair | AsyncAwait/Future.swift:157-164 | a pair counts as a value only when its error is absent; an error wins over a value, and neither gives `nilValue` |
| Combinators.AttemptMap | AsyncAwait/Future.swift:151-169 | an upstream failure is forwarded; otherwise the new future reports the closure's pair read as `FromPair`: its error, even beside a value, else its value, else `nilValue` |
| Combinators.AttemptMapIsMap | AsyncAwait/Future.swift:151-188 | `attemptMap` is `map` over the closure's pair read by `FromPair` |
| Combinators.Map | AsyncAwait/Future.swift:172-188 | an upstream failure is forwarded; otherwise the new future reports what the closure returned or threw |
| Combinators.MapIdentity | AsyncAwait/Future.swift:172-188 | mapping with the identity closure is `on` |
| Combinators.MapComposes | AsyncAwait/Future.swift:172-188 | mapping the mapped future is mapping once with the closures chained |
| Combinators.MapAsync | AsyncAwait/Future.swift:190-200 | an upstream failure is forwarded; otherwise the new future reports what the closure returned or threw |
| Combinators.MapAsyncIsMap | AsyncAwait/Future.swift:172-200 | in synchronous mode `mapAsync` and `map` give the same future |
| Combinators.FlatMap | AsyncAwait/Future.swift:202-215 | an upstream failure or a throwing closure is forwarded; otherwise the new future reports what awaiting the inner future reported |
| Combinators.FlatMapLeftIdentity | AsyncAwait/Future.swift:202-215 | flat-mapping a settled success applies the closure to its value |
| Combinators.FlatMapRightIdentity | AsyncAwait/Future.swift:202-215 | flat-mapping into settled futures of the same value is `on` |
| Combinators.MapAsyncIsFlatMap | AsyncAwait/Future.swift:190-215 | `mapAsync` is `flatMap` into the settled future of the closure's outcome |
| Combinators.Combine | AsyncAwait/Future.swift:217-228 | succeeds exactly when both awaits succeed, with the pair in the order (self, other); otherwise fails with self's error if self failed, else with the other's |
| Combinators.CombineIsFlatMap | AsyncAwait/Future.swift:202-228 | `combine` is `flatMap` over self into a `map` of the other future |
| Combinators.CombineStatic | AsyncAwait/Future.swift:230-232 | settles; succeeds exactly when both awaits succeed, with the pair (first, second); otherwise fails with the first future's error if it failed, else with the second's |
| Combinators.CombineStaticIsCombine | AsyncAwait/Future.swift:230-232 | the static form equals the instance form called on the first future with the second |
| Combinators.CombinatorAwaitsAreAllowed | AsyncAwait/AsyncAwait.swift:12-34 | an upstream await run in an `async` block always passes the main-thread guard and yields the decision the combinators use; in testing mode `async` and `main` run inline |
| Combinators.CombineExample | AsyncAwait/Future.swift:217-228 | 1 and "x" combine to (1, "x"); if the second fails with E the combination fails with E |

## Left out

- The `DispatchSemaphore` and the wake loop in the `didSet` of the state: blocking and waking are concurrency. A wait is modelled by whether it timed out and the state it wakes to.
- FutureAwait.Expired: a signal arriving exactly at the deadline counts as in time; which way the semaphore decides that boundary is not specified.
- FutureAwait.AwaitFor: intervals are exact integers of nanoseconds; the clamping of huge intervals when added to the current dispatch time is not modelled.
- The unsynchronised check-and-set in `switch` under concurrent writers: a data race, not sequential behaviour.
- `Thread.isMainThread` and the `fatalError` it guards: kept only as the precondition `MayAwait` of `Await`.
- The dispatch queues of AsyncAwait/AsyncAwait.swift: combinators are modelled in synchronous mode, where `async` and `main` run inline. Outside that mode a holder could cancel the new future before the background block settles it; that race is only covered by the general first-write-wins lemmas.
- The thread on which `map` and `attemptMap` run their closure: not observable in the model.
- The side effects of the handlers given to `on`: only which handler is called and with what is modelled.
- `FutureProtocol` and the `future` property: identity glue with no behaviour.
- The playground demo and the timing-based test assertions, which depend on real delays.

=== FILE: await_error.dfy ===
/** The failures a future can report.

    The library defines three failure kinds of its own (`AwaitError`);
    everything else is an error supplied by a producer, which the future
    stores and hands on without inspecting it. */
module AwaitErrors {

  /** `TimedOut`, `NilValue` and `Cancelled` are the library's own kinds;
      `Thrown` stands for any producer error, identified only by a tag. */
  datatype Err =
    | TimedOut
    | NilValue
    | Cancelled
    | Thrown(tag: string)
}

=== FILE: combinators.dfy ===
/** The combinators, in synchronous mode.

    Each combinator builds a new future whose completion routine awaits
    the upstream future(s) inside `async { }` and then calls `accept` or
    `reject` exactly once. In synchronous mode `async` and `main` run
    their block inline, so the new future is settled when construction
    returns; its state is a function of what the upstream awaits report
    and what the closure returns. A closure that throws is a closure
    returning `Fail`. */
module Combinators {
  import opened AwaitErrors
  import opened Outcomes
  import opened Dispatch
  import opened Futures
  import opened FutureInit
  import opened FutureAwait

  /** The one call a combinator's completion routine makes. */
  function Forward<T>(r: Result<T>): Call<T> {
    match r
    case Ok(v) => AcceptCall(v)
    case Fail(e) => RejectCall(e)
  }

  /** The new future after its routine forwarded `r`. */
  function Settle<T>(r: Result<T>): (s: State<T>)
    ensures s.IsTerminal()
    ensures Resolution(s) == r
  {
    Init([Forward(r)])
  }

  /** `on(completion:failure:)`: the upstream outcome, passed through. */
  function On<V>(up: Waiter<V>): (r: State<V>)
    ensures r.IsTerminal()
    ensures Resolution(r) == Decide(up)
    ensures r.Value().Some? <==> Decide(up).Ok?
  {
    match Decide(up)
    case Ok(v) => Settle(Ok(v))
    case Fail(e) => Settle(Fail(e))
  }

  /** Which optional handlers `on` was given. */
  datatype Handlers = Handlers(hasCompletion: bool, hasFailure: bool)

  /** The handler call `on` makes before forwarding: the completion handler
      with the upstream value, or the failure handler with the upstream
      error, when that handler was given. */
  function OnNotifies<V>(up: Waiter<V>, h: Handlers): (r: Option<Result<V>>)
    ensures r.Some? ==> r.value == Decide(up) && Resolution(On(up)) == r.value
    ensures r.None? <==> (Decide(up).Ok? && !h.hasCompletion) || (Decide(up).Fail? && !h.hasFailure)
  {
    match Decide(up)
    case Ok(v) => if h.hasCompletion then Some(Ok(v)) else None
    case Fail(e) => if h.hasFailure then Some(Fail(e)) else None
  }

  /** Reading an `attemptMap` closure's `(value?, error?)` pair: an error
      wins over a value, and a pair with neither is `NilValue`. */
  function FromPair<T>(p: (Option<T>, Option<Err>)): (r: Result<T>)
    ensures r.Ok? <==> p.1.None? && p.0.Some?
    ensures r.Ok? ==> Some(r.value) == p.0
    ensures p.1.Some? ==> r == Fail(p.1.value)
    ensures p.0.None? && p.1.None? ==> r == Fail(NilValue)
  {
    if p.1.Some? then Fail(p.1.value)
    else if p.0.Some? then Ok(p.0.value)
    else Fail(NilValue)
  }

  /** `attemptMap`: an upstream failure is forwarded; otherwise the
      closure's error rejects, even beside a value, its value alone
      accepts, and neither rejects with `NilValue`. */
  function AttemptMap<V, T>(up: Waiter<V>, f: V -> (Option<T>, Option<Err>)): (r: State<T>)
    ensures r.IsTerminal()
    ensures Decide(up).Fail? ==> r.Error() == Some(Decide(up).error)
    ensures r.Value().Some? ==> Decide(up).Ok? && f(Decide(up).value).1.None? && f(Decide(up).value).0 == r.Value()
    ensures Decide(up).Ok? && f(Decide(up).value).1.Some? ==> r.Error() == f(Decide(up).value).1
    ensures Decide(up).Ok? ==> Resolution(r) == FromPair(f(Decide(up).value))
  {
    match Decide(up)
    case Fail(e) => Settle(Fail(e))
    case Ok(v) =>
      var mapped := f(v);
      if mapped.1.Some? then Settle(Fail(mapped.1.value))
      else if mapped.0.Some? then Settle(Ok(mapped.0.value))
      else Settle(Fail(NilValue))
  }

  /** `map`: an upstream failure is forwarded; otherwise the closure runs
      (on the main queue) and its value is accepted, or its thrown error
      rejected. */
  function Map<V, T>(up: Waiter<V>, f: V -> Result<T>): (r: State<T>)
    ensures r.IsTerminal()
    ensures Decide(up).Fail? ==> r.Error() == Some(Decide(up).error)
    ensures Decide(up).Ok? ==> Resolution(r) == f(Decide(up).value)
  {
    match Decide(up)
    case Fail(e) => Settle(Fail(e))
    case Ok(v) =>
      match f(v)
      case Ok(mapped) => Settle(Ok(mapped))
      case Fail(e) => Settle(Fail(e))
  }

  /** `mapAsync`: like `map`, but the closure runs in the same block as
      the await, so one catch handles both failures. */
  function MapAsync<V, T>(up: Waiter<V>, f: V -> Result<T>): (r: State<T>)
    ensures r.IsTerminal()
    ensures Decide(up).Fail? ==> r.Error() == Some(Decide(up).error)
    ensures Decide(up).Ok? ==> Resolution(r) == f(Decide(up).value)
  {
    Settle(var value :- Decide(up); f(value))
  }

  /** `flatMap`: await upstream, call the closure for a future, await that
      future and forward its outcome; a failure at any of the three steps
      rejects with that failure. */
  function FlatMap<V, T>(up: Waiter<V>, f: V -> Result<Waiter<T>>): (r: State<T>)
    ensures r.IsTerminal()
    ensures Decide(up).Fail? ==> r.Error() == Some(Decide(up).error)
    ensures Decide(up).Ok? && f(Decide(up).value).Fail? ==> r.Error() == Some(f(Decide(up).value).error)
    ensures Decide(up).Ok? && f(Decide(up).value).Ok? ==> Resolution(r) == Decide(f(Decide(up).value).value)
  {
    Settle(
      var value :- Decide(up);
      var mappedFuture :- f(value);
      Decide(mappedFuture))
  }

  /** `combine(with:)`: await self, then the other future, and accept the
      pair in that order; the first failure met rejects, so when both fail
      the error of self wins. */
  function Combine<V, U>(self: Waiter<V>, other: Waiter<U>): (r: State<(V, U)>)
    ensures r.IsTerminal()
    ensures r.Value().Some? <==> Decide(self).Ok? && Decide(other).Ok?
    ensures r.Value().Some? ==> r.Value().value == (Decide(self).value, Decide(other).value)
    ensures Decide(self).Fail? ==> r.Error() == Some(Decide(self).error)
    ensures Decide(self).Ok? && Decide(other).Fail? ==> r.Error() == Some(Decide(other).error)
  {
    Settle(
      var val :- Decide(self);
      var val2 :- Decide(other);
      Ok((val, val2)))
  }

  /** The static `combine(_:_:)`: the pair of the first and second
      future, the first future's failure winning. */
  function CombineStatic<V, U>(future1: Waiter<V>, future2: Waiter<U>): (r: State<(V, U)>)
    ensures r.IsTerminal()
    ensures r.Value().Some? <==> Decide(future1).Ok? && Decide(future2).Ok?
    ensures r.Value().Some? ==> r.Value().value == (Decide(future1).value, Decide(future2).value)
    ensures Decide(future1).Fail? ==> r.Error() == Some(Decide(future1).error)
    ensures Decide(future1).Ok? && Decide(future2).Fail? ==> r.Error() == Some(Decide(future2).error)
  {
    Combine(future1, future2)
  }

  /** The static form is the instance form called on the first future. */
  lemma CombineStaticIsCombine<V, U>(future1: Waiter<V>, future2: Waiter<U>)
    ensures CombineStatic(future1, future2) == Combine(future1, future2)
  {
  }

  /** The awaits inside a combinator's `async` block always pass the
      main-thread guard, and there the guarded `await` is the decision the
      combinators use. In synchronous mode `async` and `main` both run
      their block on the caller. */
  lemma CombinatorAwaitsAreAllowed<V>(ctx: Context, up: Waiter<V>)
    ensures Background(ctx).MayAwait()
    ensures Await(Background(ctx), up) == Decide(up)
    ensures ctx.IsTesting() ==> Background(ctx) == ctx && Foreground(ctx) == ctx
  {
  }

  /** `map` with the identity closure is `on`. */
  lemma MapIdentity<V>(up: Waiter<V>)
    ensures Map(up, (v: V) => Ok(v)) == On(up)
  {
  }

  /** In synchronous mode `mapAsync` and `map` agree; they differ only in
      the thread the closure runs on. */
  lemma MapAsyncIsMap<V, T>(up: Waiter<V>, f: V -> Result<T>)
    ensures MapAsync(up, f) == Map(up, f)
  {
  }

  /** `attemptMap` is `map` over a closure whose pair is read by `FromPair`. */
  lemma AttemptMapIsMap<V, T>(up: Waiter<V>, f: V -> (Option<T>, Option<Err>))
    ensures AttemptMap(up, f) == Map(up, (v: V) => FromPair(f(v)))
  {
  }

  /** The closure after another: a throw from either stops the chain. */
  function Then<A, B, C>(f: A -> Result<B>, g: B -> Result<C>): A -> Result<C> {
    (a: A) => var b :- f(a); g(b)
  }

  /** Mapping twice is mapping once with the two closures chained. */
  lemma MapComposes<A, B, C>(up: Waiter<A>, f: A -> Result<B>, g: B -> Result<C>)
    ensures Map(Ready(Map(up, f)), g) == Map(up, Then(f, g))
  {
  }

  /** Flat-mapping a settled success runs the closure on its value. */
  lemma FlatMapLeftIdentity<V, T>(v: V, f: V -> Result<Waiter<T>>)
    ensures FlatMap(Ready(Success(v)), f) == Settle(var w :- f(v); Decide(w))
  {
  }

  /** Flat-mapping into settled futures of the same value is `on`. */
  lemma FlatMapRightIdentity<V>(up: Waiter<V>)
    ensures FlatMap(up, (v: V) => Ok(Ready(Success(v)))) == On(up)
  {
  }

  /** `mapAsync` is `flatMap` over the settled future of the closure's
      outcome. */
  lemma MapAsyncIsFlatMap<V, T>(up: Waiter<V>, f: V -> Result<T>)
    ensures MapAsync(up, f) == FlatMap(up, (v: V) => Ok(Ready(Settle(f(v)))))
  {
  }

  /** `combine` awaits the second future inside a `flatMap` of the first. */
  lemma CombineIsFlatMap<V, U>(self: Waiter<V>, other: Waiter<U>)
    ensures Combine(self, other) == FlatMap(self, (x: V) => Ok(Ready(Map(other, (y: U) => Ok((x, y))))))
  {
  }

  /** Two futures settled with 1 and "x" combine to (1, "x"); if the
      second fails instead, the combination fails with its error. */
  lemma CombineExample(e: Err)
    ensures Combine(Ready(Success(1)), Ready(Success("x"))) == Success((1, "x"))
    ensures Combine(Ready(Success(1)), Ready<string>(Failure(e))).Error() == Some(e)
  {
  }
}

=== FILE: dispatch.dfy ===
/** The calling context as far as the library can observe it.

    The dispatch queues themselves are not modelled: combinators are
    modelled in synchronous mode, where `async` and `main` run their block
    inline. What remains is the information `await` consults before it
    blocks: whether it runs on the main thread, and whether the process is
    in testing mode. */
module Dispatch {

  datatype Context = Context(onMainThread: bool, xcTestLoaded: bool, synchronousMode: bool) {

    /** Testing mode needs both the XCTest runtime and the synchronous-mode switch. */
    predicate IsTesting() {
      xcTestLoaded && synchronousMode
    }

    /** `await` refuses to block the main thread, except in testing mode. */
    predicate MayAwait() {
      !onMainThread || IsTesting()
    }
  }

  /** The context a block handed to `async` runs in: inline on the caller
      in testing mode, otherwise on a worker of the concurrent queue. */
  function Background(ctx: Context): (r: Context)
    ensures r.MayAwait()
    ensures ctx.IsTesting() ==> r == ctx
    ensures !ctx.IsTesting() ==> !r.onMainThread
    ensures r.xcTestLoaded == ctx.xcTestLoaded && r.synchronousMode == ctx.synchronousMode
  {
    if ctx.IsTesting() then ctx else ctx.(onMainThread := false)
  }

  /** The context a block handed to `main` runs in: inline on the caller
      in testing mode, otherwise on the main thread. */
  function Foreground(ctx: Context): (r: Context)
    ensures r.onMainThread || r.IsTesting()
    ensures r.IsTesting() <==> ctx.IsTesting()
    ensures ctx.IsTesting() ==> r == ctx
    ensures r.xcTestLoaded == ctx.xcTestLoaded && r.synchronousMode == ctx.synchronousMode
  {
    if ctx.IsTesting() then ctx else ctx.(onMainThread := true)
  }
}

=== FILE: future_await.dfy ===
/** Waiting for a future.

    Blocking and waking are left to the semaphore, which is not modelled;
    what an `await` call returns is decided by three observations: the
    state when the call starts, whether the wait ran out of time, and the
    state when the waiter wakes. The call never changes the state. */
module FutureAwait {
  import opened AwaitErrors
  import opened Outcomes
  import opened Dispatch
  import opened Futures

  /** What one `await` call on a future gets to see. */
  datatype Waiter<+V> = Waiter(before: State<V>, timedOut: bool, after: State<V>)

  /** A call on a future that is already settled. */
  function Ready<V>(s: State<V>): Waiter<V> {
    Waiter(s, false, s)
  }

  /** Reference definition: the outcome a state stands for. A future still
      working when inspected stands for the defensive `NilValue`. */
  function Resolution<V>(s: State<V>): Result<V> {
    match s
    case Success(v) => Ok(v)
    case Failure(e) => Fail(e)
    case Cancelled => Fail(AwaitErrors.Cancelled)
    case Working => Fail(NilValue)
  }

  /** The decision `await(timeoutInterval:)` takes after its thread check:
      a settled future answers at once from its accessors; otherwise the
      call waits, and reports a timeout, or the error or value found on
      waking, or `NilValue` when there is neither. */
  function Decide<V>(w: Waiter<V>): (r: Result<V>)
    ensures w.before.IsTerminal() ==> r == Resolution(w.before)
    ensures w.before.Working? && w.timedOut ==> r == Fail(TimedOut)
    ensures w.before.Working? && !w.timedOut ==> r == Resolution(w.after)
  {
    if w.before.Error().Some? then Fail(w.before.Error().value)
    else if w.before.Value().Some? then Ok(w.before.Value().value)
    else if w.timedOut then Fail(TimedOut)
    else if w.after.Error().Some? then Fail(w.after.Error().value)
    else if w.after.Value().None? then Fail(NilValue)
    else Ok(w.after.Value().value)
  }

  /** `await(timeoutInterval:)`, with the main-thread guard as its
      precondition: a settled future answers from its state, and a working
      one times out or reports the state it wakes to. */
  function Await<V>(ctx: Context, w: Waiter<V>): (r: Result<V>)
    requires ctx.MayAwait()
    ensures w.before.IsTerminal() ==> r == Resolution(w.before)
    ensures w.before.Working? && w.timedOut ==> r == Fail(TimedOut)
    ensures w.before.Working? && !w.timedOut ==> r == Resolution(w.after)
    ensures r.Ok? ==> w.before.Value() == Some(r.value) || (w.before.Working? && !w.timedOut && w.after.Value() == Some(r.value))
  {
    Decide(w)
  }

  /** A `DispatchTimeInterval`: a count of some unit (possibly negative),
      or `never`. */
  datatype Interval =
    | Seconds(n: int)
    | Milliseconds(n: int)
    | Microseconds(n: int)
    | Nanoseconds(n: int)
    | Never

  /** The length of an interval in nanoseconds; `never` has none. */
  function Nanos(i: Interval): Option<int> {
    match i
    case Seconds(n) => Some(n * 1_000_000_000)
    case Milliseconds(n) => Some(n * 1_000_000)
    case Microseconds(n) => Some(n * 1_000)
    case Nanoseconds(n) => Some(n)
    case Never => None
  }

  /** Whether a wait of `interval` runs out before the signal, which
      arrives `signalAt` nanoseconds after the call, if ever. A signal
      exactly at the deadline counts as in time. */
  function Expired(interval: Interval, signalAt: Option<nat>): bool {
    match Nanos(interval)
    case None => false
    case Some(limit) => signalAt.None? || signalAt.value > limit
  }

  /** A longer wait expires no sooner: whatever a wait survives, every
      longer wait survives too, `never` is never cut short, a wait of
      negative length always expires, and the units agree with one
      another. */
  lemma LongerWaitsExpireLater(n1: int, n2: int, signalAt: Option<nat>)
    requires n1 <= n2
    ensures Expired(Nanoseconds(n2), signalAt) ==> Expired(Nanoseconds(n1), signalAt)
    ensures !Expired(Never, signalAt)
    ensures n1 < 0 ==> Expired(Nanoseconds(n1), signalAt)
    ensures Expired(Seconds(n1), signalAt) == Expired(Milliseconds(n1 * 1000), signalAt)
    ensures Expired(Milliseconds(n1), signalAt) == Expired(Microseconds(n1 * 1000), signalAt)
    ensures Expired(Microseconds(n1), signalAt) == Expired(Nanoseconds(n1 * 1000), signalAt)
  {
  }

  /** `await(timeoutInterval:)` given when the future is signalled, if
      ever (nanoseconds after the call), and the state it wakes to.
      `None` is a call that never returns: a `never` wait on a working
      future that nobody settles. */
  function AwaitFor<V>(ctx: Context, before: State<V>, interval: Interval, signalAt: Option<nat>, after: State<V>): (r: Option<Result<V>>)
    requires ctx.MayAwait()
    ensures r.None? <==> before.Working? && interval.Never? && signalAt.None?
    ensures before.IsTerminal() ==> r == Some(Resolution(before))
    ensures before.Working? && signalAt.None? && !interval.Never? ==> r == Some(Fail(TimedOut))
    ensures before.Working? && signalAt.Some? && Nanos(interval).Some? && signalAt.value > Nanos(interval).value
            ==> r == Some(Fail(TimedOut))
    ensures before.Working? && signalAt.Some? && (interval.Never? || signalAt.value <= Nanos(interval).value)
            ==> r == Some(Resolution(after))
  {
    if before.Working? && interval.Never? && signalAt.None? then None
    else Some(Await(ctx, Waiter(before, Expired(interval, signalAt), after)))
  }

  /** The timeout `await()` uses. */
  const DefaultTimeout: Interval := Seconds(60)

  /** `await()`: never blocks for longer than sixty seconds. */
  function AwaitDefault<V>(ctx: Context, before: State<V>, signalAt: Option<nat>, after: State<V>): (r: Result<V>)
    requires ctx.MayAwait()
    ensures before.IsTerminal() ==> r == Resolution(before)
    ensures before.Working? && signalAt.Some? && signalAt.value <= 60_000_000_000 ==> r == Resolution(after)
    ensures before.Working? && (signalAt.None? || signalAt.value > 60_000_000_000) ==> r == Fail(TimedOut)
  {
    var outcome := AwaitFor(ctx, before, DefaultTimeout, signalAt, after);
    outcome.value
  }

  /** Awaiting a settled future neither waits nor depends on when it is
      called: every await reports the same outcome. */
  lemma AwaitRepeatable<V>(ctx1: Context, ctx2: Context, s: State<V>, w1: Waiter<V>, w2: Waiter<V>)
    requires ctx1.MayAwait() && ctx2.MayAwait()
    requires s.IsTerminal() && w1.before == s && w2.before == s
    ensures Await(ctx1, w1) == Await(ctx2, w2)
    ensures Await(ctx1, w1).Ok? <==> s.Success?
  {
  }

  /** A terminal state and its reported outcome determine each other:
      the value is returned exactly for success, the error thrown
      exactly for failure or cancellation. */
  lemma ResolutionMatchesAccessors<V>(s: State<V>)
    requires s.IsTerminal()
    ensures Resolution(s).Ok? <==> s.Value().Some?
    ensures Resolution(s).Ok? ==> Some(Resolution(s).value) == s.Value()
    ensures Resolution(s).Fail? ==> Some(Resolution(s).error) == s.Error()
  {
  }

  /** A waiter woken by the producer or a canceller sees the outcome the
      first call decided, so cancelling during the wait makes the waiter
      fail with `Cancelled`. */
  lemma {:induction false} SignalledWaitSeesFirstCall<V>(calls: seq<Call<V>>)
    requires |calls| > 0
    ensures Decide(Waiter(Working, false, Run(Working, calls))) == Resolution(Target(calls[0]))
    ensures calls[0].CancelCall? ==> Decide(Waiter(Working, false, Run(Working, calls))) == Fail(AwaitErrors.Cancelled)
  {
    RunIsFirstWrite(Working, calls);
  }

  /** A producer that settles after 100 ms: a one-second wait returns its
      value, a ten-millisecond wait times out, and a later await still
      returns the value, since timing out does not touch the future. */
  lemma TimeoutDoesNotPoison(ctx: Context)
    requires ctx.MayAwait()
    ensures AwaitFor(ctx, Working, Seconds(1), Some(100_000_000), Accept(Working, 42)) == Some(Ok(42))
    ensures AwaitFor(ctx, Working, Milliseconds(10), Some(100_000_000), Accept(Working, 42)) == Some(Fail(TimedOut))
    ensures AwaitDefault(ctx, Accept(Working, 42), None, Working) == Ok(42)
  {
  }
}

=== FILE: future_init.dfy ===
/** The ways to create a future.

    The designated initialiser runs the producer's completion routine at
    once, handing it `accept` and `reject`; the calls the routine makes
    (now or later) settle the new future. The convenience forms are built
    on top of it. */
module FutureInit {
  import opened AwaitErrors
  import opened Outcomes
  import opened Futures

  /** The designated `init(completion:)`: a new working future receiving
      the calls the completion routine makes, in order. */
  function Init<V>(calls: seq<Call<V>>): (r: State<V>)
    ensures |calls| == 0 <==> r.Working?
    ensures |calls| > 0 ==> r == Target(calls[0])
  {
    RunIsFirstWrite(Working, calls);
    Run(Working, calls)
  }

  /** One step of a throwing completion routine: call the completion
      handler with a value, or throw. */
  datatype Step<+V> = Complete(value: V) | Throw(error: Err)

  /** The call one step asks for. */
  function StepCall<V>(st: Step<V>): Call<V> {
    match st
    case Complete(v) => AcceptCall(v)
    case Throw(e) => RejectCall(e)
  }

  /** The accept/reject calls the throwing form makes on the designated
      initialiser: each completion becomes an accept, and the first throw
      becomes a reject and ends the routine, so later steps never run. */
  function ThrowingCalls<V>(script: seq<Step<V>>): (calls: seq<Call<V>>)
    ensures |calls| <= |script|
    ensures |script| > 0 ==> |calls| > 0
    ensures |script| > 0 && script[0].Complete? ==> calls[0] == AcceptCall(script[0].value)
    ensures |script| > 0 && script[0].Throw? ==> calls == [RejectCall(script[0].error)]
    ensures forall i :: 0 <= i < |calls| - 1 ==> calls[i].AcceptCall?
    ensures forall i :: 0 <= i < |calls| ==> calls[i] == StepCall(script[i])
    ensures forall i :: 0 <= i < |calls| - 1 ==> script[i].Complete?
    ensures (|calls| < |script| || (|calls| > 0 && calls[|calls| - 1].RejectCall?))
            <==> exists i :: 0 <= i < |script| && script[i].Throw?
    ensures |calls| < |script| ==> |calls| > 0 && calls[|calls| - 1].RejectCall?
    decreases |script|
  {
    if |script| == 0 then []
    else match script[0]
      case Complete(v) => [AcceptCall(v)] + ThrowingCalls(script[1..])
      case Throw(e) => [RejectCall(e)]
  }

  /** The convenience `init(completion:)` whose routine may throw: the
      first effective step decides the outcome, and an error thrown after
      a completion is discarded. */
  function ThrowingInit<V>(script: seq<Step<V>>): (r: State<V>)
    ensures |script| == 0 ==> r.Working?
    ensures |script| > 0 && script[0].Throw? ==> r == Failure(script[0].error)
    ensures |script| > 0 && script[0].Complete? ==> r.Value() == Some(script[0].value)
    ensures |script| > 0 && script[0].Complete? ==> r.Error().None?
  {
    Init(ThrowingCalls(script))
  }

  /** `init(value:)`: settled with the value before anyone can see it. */
  function InitValue<V>(v: V): (r: State<V>)
    ensures r.Value() == Some(v) && r.Error().None?
  {
    ThrowingInit([Complete(v)])
  }

  /** `init(error:)`: failed with the error before anyone can see it. */
  function InitError<V>(e: Err): (r: State<V>)
    ensures r.Error() == Some(e) && r.Value().None?
  {
    ThrowingInit([Throw(e)])
  }

  /** A routine that completes and then throws keeps its value; one that
      throws first keeps the error, whatever it would have done next. */
  lemma ThrowAfterCompleteIsDiscarded(e: Err)
    ensures ThrowingInit([Complete("Done"), Throw(e)]) == Success("Done")
    ensures ThrowingInit([Throw(e), Complete("Done")]) == Failure(e)
    ensures ThrowingInit([Complete("Done"), Complete("Done2")]) == Success("Done")
  {
  }

  /** Calls made after construction returns (by the producer later, or by
      a holder cancelling) cannot undo what the routine already decided. */
  lemma {:induction false} SettledAtInitStaysSettled<V>(calls: seq<Call<V>>, later: seq<Call<V>>)
    requires |calls| > 0
    ensures Run(Init(calls), later) == Init(calls)
  {
    TerminalAbsorbs(Init(calls), later);
  }
}

=== FILE: future_state.dfy ===
/** The result cell at the heart of `Future<Value>`.

    A future starts `Working` and leaves it at most once: the first of the
    producer's `accept`/`reject` calls and any holder's `cancel` decides
    the outcome for good, and every later call is ignored. */
module Futures {
  import opened AwaitErrors
  import opened Outcomes

  datatype State<+V> =
    | Working
    | Success(result: V)
    | Failure(cause: Err)
    | Cancelled
  {
    /** Success, failure and cancellation are final. */
    predicate IsTerminal() {
      !Working?
    }

    /** The `value` accessor: present exactly for a successful future. */
    function Value(): (r: Option<V>)
      ensures r.Some? <==> Success?
      ensures r.Some? ==> Error().None?
    {
      if Success? then Some(result) else None
    }

    /** The `error` accessor: the stored error of a failed future, the
        library's `Cancelled` kind for a cancelled one, absent otherwise. */
    function Error(): (r: Option<Err>)
      ensures r.Some? <==> Failure? || Cancelled?
      ensures Cancelled? ==> r == Some(AwaitErrors.Cancelled)
    {
      if Failure? then Some(cause)
      else if Cancelled? then Some(AwaitErrors.Cancelled)
      else None
    }
  }

  /** `State.switch`: a requested state replaces only `Working`. */
  function Switch<V>(s: State<V>, next: State<V>): (r: State<V>)
    ensures r == s || r == next
    ensures r != s ==> s.Working?
    ensures s.Working? ==> r == next
  {
    if s.Working? then next else s
  }

  /** The producer's `accept(value)` callback. */
  function Accept<V>(s: State<V>, v: V): (r: State<V>)
    ensures s.Working? ==> r.Value() == Some(v) && r.Error().None?
    ensures s.IsTerminal() ==> r == s
  {
    Switch(s, Success(v))
  }

  /** The producer's `reject(error)` callback. */
  function Reject<V>(s: State<V>, e: Err): (r: State<V>)
    ensures s.Working? ==> r.Error() == Some(e) && r.Value().None?
    ensures s.IsTerminal() ==> r == s
  {
    Switch(s, Failure(e))
  }

  /** `cancel()`: a working future reports `Cancelled` from then on; a
      settled one keeps its value or error. */
  function Cancel<V>(s: State<V>): (r: State<V>)
    ensures s.Working? ==> r.Error() == Some(AwaitErrors.Cancelled) && r.Value().None?
    ensures s.IsTerminal() ==> r == s
    ensures s.IsTerminal() ==> r.Value() == s.Value() && r.Error() == s.Error()
  {
    Switch(s, State.Cancelled)
  }

  /** One call that tries to settle a future. */
  datatype Call<+V> = AcceptCall(value: V) | RejectCall(error: Err) | CancelCall

  /** The state a call asks for. */
  function Target<V>(c: Call<V>): (r: State<V>)
    ensures r.IsTerminal()
  {
    match c
    case AcceptCall(v) => Success(v)
    case RejectCall(e) => Failure(e)
    case CancelCall => State.Cancelled
  }

  /** Delivers one call to the cell. */
  function Apply<V>(s: State<V>, c: Call<V>): State<V> {
    match c
    case AcceptCall(v) => Accept(s, v)
    case RejectCall(e) => Reject(s, e)
    case CancelCall => Cancel(s)
  }

  /** Delivers calls in order, the way the cell experiences them. */
  function Run<V>(s: State<V>, calls: seq<Call<V>>): (r: State<V>)
    ensures s.IsTerminal() ==> r == s
    ensures |calls| > 0 ==> r.IsTerminal()
    decreases |calls|
  {
    if |calls| == 0 then s else Run(Apply(s, calls[0]), calls[1..])
  }

  /** Reference definition of first-write-wins: a settled cell stays as it
      is, and a working one takes whatever the first call asks for. */
  function FirstWrite<V>(s: State<V>, calls: seq<Call<V>>): State<V> {
    if s.IsTerminal() || |calls| == 0 then s else Target(calls[0])
  }

  /** Whatever a call asks, it acts like a switch to its target. */
  lemma ApplyIsSwitch<V>(s: State<V>, c: Call<V>)
    ensures Apply(s, c) == Switch(s, Target(c))
  {
  }

  /** Across any sequence of accept, reject and cancel calls the first one
      decides the state, and the rest have no effect. */
  lemma {:induction false} RunIsFirstWrite<V>(s: State<V>, calls: seq<Call<V>>)
    ensures Run(s, calls) == FirstWrite(s, calls)
    decreases |calls|
  {
    if |calls| > 0 {
      var s' := Apply(s, calls[0]);
      ApplyIsSwitch(s, calls[0]);
      RunIsFirstWrite(s', calls[1..]);
    }
  }

  /** A settled cell absorbs every later call. */
  lemma {:induction false} TerminalAbsorbs<V>(s: State<V>, calls: seq<Call<V>>)
    requires s.IsTerminal()
    ensures Run(s, calls) == s
  {
    RunIsFirstWrite(s, calls);
  }

  /** Calls arriving after the cell settled change nothing. */
  lemma {:induction false} LaterCallsIgnored<V>(calls: seq<Call<V>>, later: seq<Call<V>>)
    requires |calls| > 0
    ensures Run(Working, calls + later) == Run(Working, calls)
    ensures Run(Working, calls + later).IsTerminal()
  {
    RunIsFirstWrite(Working, calls + later);
    RunIsFirstWrite(Working, calls);
    assert (calls + later)[0] == calls[0];
  }

  /** The cell as a mutable variable receiving the calls one at a time. */
  method Deliver<V>(s0: State<V>, calls: seq<Call<V>>) returns (s: State<V>)
    ensures s == FirstWrite(s0, calls)
    ensures s0.IsTerminal() ==> s == s0
    ensures s0.Working? && |calls| > 0 ==> s == Target(calls[0])
  {
    s := s0;
    var i := 0;
    while i < |calls|
      invariant 0 <= i <= |calls|
      invariant s == FirstWrite(s0, calls[..i])
    {
      assert calls[..i + 1][0] == calls[0];
      s := Apply(s, calls[i]);
      i := i + 1;
    }
    assert calls[..i] == calls;
  }

  /** Two accepts keep the first value; an accept followed by a reject
      keeps the value and reports no error. */
  lemma FirstAcceptWins(e: Err)
    ensures Run(Working, [AcceptCall("Done"), AcceptCall("Done2")]).Value() == Some("Done")
    ensures Run(Working, [AcceptCall("Done"), RejectCall(e)]).Value() == Some("Done")
    ensures Run(Working, [AcceptCall("Done"), RejectCall(e)]).Error().None?
  {
    RunIsFirstWrite(Working, [AcceptCall("Done"), AcceptCall("Done2")]);
    RunIsFirstWrite(Working, [AcceptCall("Done"), RejectCall(e)]);
  }

  /** A reject followed by an accept keeps the error, and of two rejects
      the first error is kept. */
  lemma FirstRejectWins(e: Err, e2: Err)
    ensures Run(Working, [RejectCall(e), AcceptCall("Done")]).Error() == Some(e)
    ensures Run(Working, [RejectCall(e), AcceptCall("Done")]).Value().None?
    ensures Run<string>(Working, [RejectCall(e), RejectCall(e2)]).Error() == Some(e)
  {
    RunIsFirstWrite(Working, [RejectCall(e), AcceptCall("Done")]);
    RunIsFirstWrite<string>(Working, [RejectCall(e), RejectCall(e2)]);
  }

  /** The two accessors are never both present, and both are absent
      exactly while the future is working. */
  lemma AccessorsExclusive<V>(s: State<V>)
    ensures !(s.Value().Some? && s.Error().Some?)
    ensures s.Working? <==> s.Value().None? && s.Error().None?
    ensures s.Failure? ==> s.Error() == Some(s.cause)
    ensures s.Success? ==> s.Value() == Some(s.result)
  {
  }
}

=== FILE: outcomes.dfy ===
/** Optional values and the outcome of a call that may throw.

    `Result` is failure-compatible, so `var x :- r; e` reads like Swift's
    `let x = try r` followed by `e`: a failure skips the rest and is
    passed on unchanged. */
module Outcomes {
  import opened AwaitErrors

  /** Swift's `Optional`. */
  datatype Option<+T> = None | Some(value: T)

  /** What a throwing call produces: a value, or the error it threw. */
  datatype Result<+T> = Ok(value: T) | Fail(error: Err) {

    predicate IsFailure() {
      Fail?
    }

    function PropagateFailure<U>(): Result<U>
      requires Fail?
    {
      Fail(error)
    }

    function Extract(): T
      requires Ok?
    {
      value
    }
  }
}
